=== FILE: README.md ===
# esnextbin editor and bundle orchestration, modelled in Dafny

This project models the client-side orchestration core of esnextbin, a live
code-editing sandbox. The core is the `BundleHOC` higher-order component and
the `Main` component it wraps. `BundleHOC` owns the editor state (`code`,
`transpiledCode`, `html`, `json`, `error`). It transpiles code with Babel on
every edit and shows Babel errors after a 1000 ms debounce. It assembles a
bundle for the sandbox from the editor state, guarded by the `bundling` flag.
It folds the modules the sandbox reports back into the package manifest. It
is meant to sync the editors to a GitHub gist at the end of a bundle; as
written, no save reaches the gist service (see "Findings"). `Main` adds the
autorun flag and its debounce, the mount-time session check, and `saveGist`.

The model is a single-threaded, event-driven state machine over immutable
records:

- `BundleHoc.HocState` is the component's state plus its instance fields
  (`gistStatus`, `errorDelay`, `progressDelay`). `MainView.MainState` is
  `Main`'s state plus `autorunDelay`. `App.AppState` holds both.
- Each handler is a pure function that returns the next state and the
  calls it made into outside code (`Effects.Effect`), in order. Handlers
  that throw part-way return `Effects.Run` with the fault and the state as
  it was when the exception left.
- `App.StepAsWritten` routes each `App.Event` to the handler that receives
  it: an edit, a run or save request, a sandbox report, a timer firing, or
  a gist callback. It is the program as the code stands.
- `App.Step` is the same program with the four defects under "Findings"
  corrected: the save records its status, a sandbox error clears the
  progress timer, and the sandbox end syncs the gist without throwing.
  The invariants that hold of both are proved of both; the scenarios about
  saving a gist are proved of `App.Step`, since as written no save gets
  that far (`App.GistStatusNeverSetAsWritten`).
- Timers are explicit (`Timers.Timer`). `held` is the timer whose handle the
  field keeps, so `clearTimeout` reaches it. `stray` lists timers that still
  fire because their handle was overwritten without being cleared, or was
  never stored.
- Babel, `JSON.parse`, `JSON.stringify` and the default editor contents are
  opaque parameters (`Environment.Env`). The session store and the gist
  service are recorded calls, and their callbacks are events.
- JavaScript values are modelled where the code depends on them.
  `undefined` versus string is `JsValues.JsStr`, and truthiness is
  `JsValues.Truthy`. `JSON.parse(undefined)` reads the text `"undefined"`.
  `Object.assign` copies the own properties of the parsed package
  (`JsValues.OwnProps`), including the indexed elements of an array or
  string.

Facts about the code that the model keeps:

- `bundling` is a boolean. It becomes true only when the 100 ms progress
  timer fires (`App.BundlingStartsOnlyByProgressTimer`). So two run
  requests within those 100 ms both produce a bundle. Two sandbox starts
  within those 100 ms overwrite the progress timer's handle, and the
  uncleared first timer turns `bundling` back on after the bundle has
  ended (`BundleHoc.OverlappingStartsLeaveBundlingOn`).
- A failed gist save leaves `bundling` as it was and does not finish the
  bundle (`BundleHoc.OnGistSaved`).
- Loading a session or a gist replaces the code without cancelling a
  pending error-display timer (`App.StepKeepsErrorTimerCurrent` excludes
  gist loads for this reason).
- `checkPreviousSession` reads `session.autorun` without a guard. It throws
  when `StorageUtils.getSession()` returns nothing, while `getSessionBundle`
  guards the same case. `StorageUtils` is not part of this model, so it is
  not known whether that return happens. `MainView.CheckPreviousSession`
  models the throw.
- `autorunOnChange` has no caller: its call in `BundleHOC`'s code-change
  handler is commented out, and `Main`'s render passes it to no child. So
  the program never produces the `AutorunChanged` and `AutorunTimerFired`
  events; `MainView.AutorunOnChange` models the function for when it is
  wired in.

## Model

| member | source | states |
|---|---|---|
| Timers.Clear | src/containers/BundleHOC.jsx:77 | `clearTimeout` on the field cancels exactly the held timer; stray timers keep running |
| Timers.Arm | src/containers/BundleHOC.jsx:132 | assigning a new timer to the field keeps the previous one pending, so one more timer is due and the old payload is among the strays |
| Timers.Schedule | src/containers/BundleHOC.jsx:59 | a timer whose handle is not stored is appended to the strays carrying its payload, so no field can cancel it; the held timer and the earlier strays are kept |
| Timers.Fire | src/containers/BundleHOC.jsx:81-83 | firing consumes exactly the named pending timer and yields its captured payload: the held one leaves the field empty, a stray one is removed from the strays with the rest kept in order; firing where nothing is pending is impossible |
| Timers.ClearThenArmLeaksNothing | src/containers/Main.jsx:97-105 | clearing before re-arming leaves the stray timers as they were, so with none there is exactly one pending timer |
| Timers.ArmWithoutClearLeaks | src/containers/BundleHOC.jsx:129-136 | re-arming a field whose timer is pending, without clearing it, leaves that timer running |
| Transpile.CommentBlockEmbedsMessage | src/containers/BundleHOC.jsx:245-249 | the replacement code opens and closes as a block comment, and the shown message can be read back from it; an empty message shows the fallback text |
| Transpile.CommentBlockClosesOnlyAtEnd | src/containers/BundleHOC.jsx:246-248 | the replacement is one comment closed only at its end if and only if the shown message contains no comment closer |
| Transpile.TranspileCodeAndCatch | src/containers/BundleHOC.jsx:237-254 | an error is returned iff the code is non-empty and Babel threw a `_babel` error; the code is then the comment block of that error; code is undefined iff the input is empty or Babel threw an untagged error, which is swallowed |
| Editors.UpdateEditorsData | src/containers/BundleHOC.jsx:205-208 | each field named in the patch takes the patch's value; every other field is unchanged |
| Editors.UpdateIdempotent | src/containers/BundleHOC.jsx:205-208 | merging the same patch twice equals merging it once; the empty patch changes nothing |
| Assembly.GetBundle | src/containers/BundleHOC.jsx:214-231 | a bundle is produced iff the manifest parses; it carries the transpiled code, the raw code, the html and the parsed manifest; otherwise the parse error |
| Assembly.BundleRunsTranspiledRawCode | src/containers/BundleHOC.jsx:225-230 | with current transpiled code, the bundle's executable code is the transpilation of the raw code it carries |
| DependencyMerge.DependencyMap | src/containers/BundleHOC.jsx:120-123 | the reduced map's keys are exactly the reported module names |
| DependencyMerge.LastWriteWins | src/containers/BundleHOC.jsx:120-123 | each name maps to the version of the last module reported under that name |
| DependencyMerge.MergeExamples | src/containers/BundleHOC.jsx:120-123 | one module gives a one-entry map; of two reports of one name the later version is kept |
| DependencyMerge.UpdatedPackage | src/containers/BundleHOC.jsx:119-124 | `dependencies` becomes the module map; every other key of the package is kept with its value and none is added |
| BundleHoc.Init | src/containers/BundleHOC.jsx:12-26 | the constructor fails iff Babel throws on the default code; otherwise defaults, no bundle, not bundling, no timers, and the transpiled code is Babel's output for the default code |
| BundleHoc.GetSessionBundle | src/containers/BundleHOC.jsx:64-72 | without a session nothing changes; with one, its code, html and json become the editors with a fresh transpilation and its error; only the editors change |
| BundleHoc.OnMount | src/containers/BundleHOC.jsx:31-47 | a truthy `gist` parameter turns the session off, shows progress and fetches that gist at `rev` or else `sha`; otherwise the session hydrates the editors |
| BundleHoc.OnGistLoaded | src/containers/BundleHOC.jsx:47-61 | an error only hides progress; a loaded gist replaces the editors with a current transpilation and schedules one unstored run timer iff `execute` or `exec` is truthy, leaving the run timers untouched otherwise |
| BundleHoc.OnCodeChange | src/containers/BundleHOC.jsx:74-91 | persists the code; shows the code with a current transpilation and a blank error at once; html and json are kept; the held error timer is replaced by one carrying Babel's error iff there is one |
| BundleHoc.FireErrorDelay | src/containers/BundleHOC.jsx:81-83 | a firing error timer makes its captured error visible; exactly that timer is consumed, the others stay as they were, and nothing else changes |
| BundleHoc.OnHtmlChange | src/containers/BundleHOC.jsx:93-96 | persists the html; only `html` and the error (blanked) change |
| BundleHoc.OnPackageChange | src/containers/BundleHOC.jsx:98-101 | persists the json; only `json` and the error (blanked) change |
| BundleHoc.MakeBundle | src/containers/BundleHOC.jsx:108-115 | no-op while bundling; an unparsable manifest shows the parse error and keeps the bundle; a parsable one installs and hands to the sandbox a bundle built from the editors |
| BundleHoc.FireExecDelay | src/containers/BundleHOC.jsx:58-60 | exactly the firing run-on-load timer is consumed, the others stay as they were, and a bundle is requested |
| BundleHoc.UpdateDependencies | src/containers/BundleHOC.jsx:117-127 | only `json` changes, and when the written package reads back, it parses as the bundle's package with its dependencies replaced |
| BundleHoc.MergedManifestReadsBack | src/containers/BundleHOC.jsx:117-126 | when the written package reads back, the rewritten manifest lists exactly the reported names, each at its last reported version, and keeps every other package key and value |
| BundleHoc.OnStartBundle | src/containers/BundleHOC.jsx:129-136 | no-op while bundling; otherwise arms one more progress timer without cancelling a pending one |
| BundleHoc.OverlappingStartsLeaveBundlingOn | src/containers/BundleHOC.jsx:129-147 | two starts within the progress delay, then two ends: bundling is off but one progress timer is still pending, and when it fires `bundling` is on with no timer left |
| BundleHoc.FireProgressDelay | src/containers/BundleHOC.jsx:132-135 | a firing progress timer sets `bundling` and shows progress; exactly that timer is consumed, so a held timer stays cancellable when a stray fires, and nothing else changes |
| BundleHoc.FinishBundling | src/containers/BundleHOC.jsx:200-203 | bundling ends, all progress is hidden, nothing else changes |
| BundleHoc.OnErrorBundleAsWritten | src/containers/BundleHOC.jsx:138-141 | bundling ends, all progress is hidden, and nothing else changes: a pending progress timer stays armed |
| BundleHoc.ErrorBeforeProgressLeavesBundlingStuck | src/containers/BundleHOC.jsx:129-141 | start, sandbox error, progress timer fires: `bundling` is true with no timer left, and run and start requests do nothing |
| BundleHoc.OnErrorBundle | src/containers/BundleHOC.jsx:138-144 | bundling ends and the held progress timer is cancelled; nothing else changes |
| BundleHoc.ErrorBeforeProgressEndsBundling | src/containers/BundleHOC.jsx:138-144 | with the timer cancelled, start then error leaves bundling off and no progress timer to fire |
| BundleHoc.GistSyncAsWritten | src/containers/BundleHOC.jsx:163-169 | clears the status and makes one update or create call that carries an undefined status |
| BundleHoc.GistSyncAsWrittenDropsStatus | src/containers/BundleHOC.jsx:163-168 | the status passed to the gist service is never the requested one |
| BundleHoc.GistSync | src/containers/BundleHOC.jsx:163-169 | clears the status and makes exactly one update (gist id present) or create (none) call carrying the editors and the requested status |
| BundleHoc.OnEndBundleAsWritten | src/containers/BundleHOC.jsx:143-147 | always cancels the held progress timer; throws iff a status is pending, leaving it pending and making no call; otherwise finishes bundling |
| BundleHoc.OnEndBundle | src/containers/BundleHOC.jsx:143-173 | always cancels the held progress timer; with no status finishes bundling; with one clears it and makes one create-or-update call chosen by the query's gist id, leaving bundling unchanged |
| BundleHoc.OnGistSaved | src/containers/BundleHOC.jsx:149-161 | an error changes nothing; success finishes bundling, hides all progress and opens the gist page first iff no gist id was captured or the save forked, making no other call |
| MainView.InitialMain | src/containers/Main.jsx:22-26 | active editor `code`, share modal closed, autorun off, no autorun timer |
| MainView.CheckPreviousSession | src/containers/Main.jsx:44-50 | throws iff there is no session; autorun is switched on iff the session's flag is truthy; nothing else changes |
| MainView.OnMount | src/containers/Main.jsx:34-42 | the session is checked only when the query has no truthy `gist` |
| MainView.MountIgnoresSessionForGist | src/containers/Main.jsx:34-39 | with a gist in the query the outcome does not depend on the session store |
| MainView.ToggleAutorun | src/containers/Main.jsx:90-95 | negates autorun, persists exactly the new value, changes nothing else |
| MainView.ToggleTwiceRestores | src/containers/Main.jsx:90-95 | toggling twice restores the state and persists the original value last |
| MainView.AutorunOnChange | src/containers/Main.jsx:97-105 | one held autorun timer, no new stray, nothing else changes |
| MainView.SaveGistAsWritten | src/containers/Main.jsx:70-74 | shows progress, then throws without recording the status or requesting a bundle |
| MainView.SaveGist | src/containers/Main.jsx:70-74 | shows progress, records the status, then requests a bundle from the state that already has the status |
| App.Initial | src/containers/BundleHOC.jsx:12-26 | start-up fails iff Babel throws on the default code; otherwise `Main`'s initial state and `BundleHOC`'s constructed state for the given query, with no status and no timers |
| App.Mount | src/containers/Main.jsx:34-39 | throws iff there is no gist parameter and no session, making no call; with a gist neither component changes state; otherwise the session hydrates the editors and autorun; of `Main`'s state only autorun changes; the calls are exactly `BundleHOC`'s mount calls (the gist fetch, or none); transpiled code stays current |
| App.Step | src/containers/BundleHOC.jsx:188-195 | the program with the four findings corrected: no event changes the query; only the autorun events change `Main`'s state |
| App.StepAsWritten | src/containers/BundleHOC.jsx:188-195 | the program as written: no event changes the query or the pending gist status; a save, or a sandbox end with a status pending, and nothing else throws; only the autorun events change `Main`'s state; a save throws with nothing changed after showing progress; every event other than save, sandbox error and sandbox end is handled as in `App.Step` |
| App.InitialIsConsistent | src/containers/BundleHOC.jsx:19-21 | with non-empty default code that Babel accepts, start-up yields current transpiled code |
| App.StepKeepsTranspiledCodeCurrent | src/containers/BundleHOC.jsx:74-86 | every event keeps the cached transpiled code equal to the transpilation of the current code |
| App.StepAsWrittenKeepsTranspiledCodeCurrent | src/containers/BundleHOC.jsx:74-86 | the same holds of the program as written |
| App.StepKeepsErrorTimerCurrent | src/containers/BundleHOC.jsx:77-84 | every event except a gist load keeps at most one error timer, carrying the current code's Babel error |
| App.StepAsWrittenKeepsErrorTimerCurrent | src/containers/BundleHOC.jsx:77-84 | the same holds of the program as written |
| App.SupersededErrorNeverShown | src/containers/BundleHOC.jsx:77-86 | a bad edit followed by a clean one leaves no error timer, a blank error, and timer events then change nothing |
| App.ErrorShownAfterQuietPeriod | src/containers/BundleHOC.jsx:79-86 | a rejected edit shows no error at once; when its timer fires the error appears and the code and transpilation stay as edited |
| App.BundleFrozenWhileBundling | src/containers/BundleHOC.jsx:108-115 | while bundling, only sandbox error, sandbox end and gist-saved events can clear the flag, change the bundle or hand the sandbox a new one |
| App.BundlingStartsOnlyByProgressTimer | src/containers/BundleHOC.jsx:132-135 | no event other than a progress timer firing switches `bundling` on |
| App.BundleFrozenWhileBundlingAsWritten | src/containers/BundleHOC.jsx:108-115 | as written, too, while bundling only the ending events can clear the flag, change the bundle or hand the sandbox a new one |
| App.BundlingStartsOnlyByProgressTimerAsWritten | src/containers/BundleHOC.jsx:132-135 | as written, too, only a progress timer firing switches `bundling` on |
| App.GistStatusNeverSetAsWritten | src/containers/Main.jsx:70-74 | as written, from the initial undefined status no event sets a status, a sandbox end never throws, and no gist is ever created or updated |
| App.BundlingStuckAsWritten | src/containers/BundleHOC.jsx:129-141 | as written, sandbox start, sandbox error, then the progress timer leave `bundling` on with no timer left; a run request then does nothing, and no event but an ending one clears the flag |
| App.BundlingEndsAfterError | src/containers/BundleHOC.jsx:138-144 | with the corrected error handler, the same start and error leave `bundling` off and the progress timer event changes nothing |
| App.AutorunTimerNeverLeaks | src/containers/Main.jsx:97-105 | no event creates a stray autorun timer, so at most one is pending |
| App.AutorunTimerNeverLeaksAsWritten | src/containers/Main.jsx:97-105 | the same holds of the program as written |
| App.MalformedManifestBlocksBundle | src/containers/BundleHOC.jsx:214-222 | a run with an unparsable manifest makes no call, keeps the bundle and shows the parse error |
| App.SaveCreatesGistAtEnd | src/containers/BundleHOC.jsx:143-169 | with the corrected handlers: save, start, end with no gist id: one create call with the editors and status, status cleared; a successful create opens the new gist and ends bundling |

## Left out

- Rendering, JSX and prop wiring beyond the handler routing in `App.StepAsWritten` and `App.Step`: UI only.
- MainView.AutorunOnChange: the function has no caller. Its call in `onCodeChange` is commented out (src/containers/BundleHOC.jsx:88-90) and `Main`'s render passes it to no child, so the `AutorunChanged` and `AutorunTimerFired` events that route to it are not produced by the program.
- `changeEditor`, `openShareModal` and `closeShareModal` in `Main`: they set UI-only state.
- `resetEditors`: it reloads the page. The session and gist utilities behind it are not part of this model.
- Keyboard shortcuts: `bindKeyShortcuts` only binds keys. The two actions it triggers are `App.Event.RunRequested` and `SaveRequested`.
- Babel internals, `JSON.parse` and `JSON.stringify`: they are opaque functions in `Environment.Env`.
- The text `JSON.stringify` writes (key order, two-space indent): packages are maps. Only the read-back of the one value written is assumed, as `Environment.ReadsBack`; JavaScript's pair meets it for packages `JSON.parse` produced.
- The query-string parser and `window.location`: the query is a given map, and the navigation is the recorded `OpenGistPage` call.
- Repeated query parameters: `querystring` turns these into arrays, but each parameter is modelled as one string.
- `StorageUtils` and `GistAPIUtils` are not part of this model. Their calls are recorded effects and their callbacks are events.
- App.Event.GistSaved: the save callback may arrive in any state, also when no create or update call is pending, so the model admits more runs than the program has. The invariants proved over every event hold of these runs too. The callback's gist id is the query's `gist`, which is the value the handler captures, since no event changes the query.
- Session and gist records: they are modelled as carrying exactly `code`, `html`, `json` (and `autorun`). Extra keys a gist might carry, which `Object.assign` would also merge, are not modelled.
- `console.log` and the error values passed to `onErrorBundle`: logging only.
- The event emitter `this.events`: no handler in the core uses it.
- Timer durations and wall-clock time: any pending timer may fire at any step.
- React's batching of `setState`: each handler issues at most one `setState` that the next one reads, so applying it at once gives the same state.
- A module named `__proto__` in the module report: `Object.assign` and the reduce treat that key as the prototype. Module names are modelled as plain keys.
- BundleHoc.UpdateDependencies: this states the manifest read-back only when the written package reads back (`ReadsBack`), because `JSON.stringify` and `JSON.parse` are opaque.

## Findings

| source | as written | input that shows it | evidently intended | confidence | as-written member | corrected member |
|---|---|---|---|---|---|---|
| src/containers/Main.jsx:72 | `saveGist` calls `this.props.setGistStatus`, which `BundleHOC` never passes down (BundleHOC.jsx:188-195), so it throws before `makeBundle` | pressing ctrl+s (`saveGist('public')`) | record the status, then request the bundle | medium, not executed (the page that renders the component could pass its own prop, but it cannot set `BundleHOC`'s field) | MainView.SaveGistAsWritten | MainView.SaveGist |
| src/containers/BundleHOC.jsx:147 | `onEndBundle` reads `this.query.gist`; `this.query` is never assigned, so it throws whenever a status is pending | a sandbox end event while `gistStatus` is `'public'` | read `this.state.query.gist` | high, not executed | BundleHoc.OnEndBundleAsWritten | BundleHoc.OnEndBundle |
| src/containers/BundleHOC.jsx:163-168 | `this.setGistStatus()` clears the status before `this.gistStatus` is passed, so the gist service always receives `undefined` | an end event with `gistStatus` `'public'` (once line 147 reads the state) | pass the status that was pending | high, not executed | BundleHoc.GistSyncAsWritten | BundleHoc.GistSync |
| src/containers/BundleHOC.jsx:138-141 | `onErrorBundle` does not cancel the progress timer, so a timer armed by `onStartBundle` fires after the error and leaves `bundling` true; every later run is ignored | sandbox start, then a sandbox error within 100 ms, then the timer fires | cancel the progress timer, as `onEndBundle` does | high, not executed | BundleHoc.ErrorBeforeProgressLeavesBundlingStuck | BundleHoc.ErrorBeforeProgressEndsBundling |

=== FILE: app.dfy ===
/** `BundleHOC(Main)` as one event-driven state machine: every user
    action, sandbox report, timer firing and gist-service callback is an
    event. `StepAsWritten` routes it to the handler the components wire to
    it, as the code stands; `Step` is the same program with the save,
    sandbox-error and sandbox-end handlers corrected. The invariants that
    hold of both are stated of both; the scenarios show where they part. */
module App {
  import opened Wrappers
  import opened JsValues
  import opened Environment
  import opened Timers
  import opened Transpile
  import opened Editors
  import opened Assembly
  import opened DependencyMerge
  import opened Effects
  import opened BundleHoc
  import opened MainView

  datatype AppState = AppState(hoc: HocState, main: MainState)

  datatype Event =
    | CodeEdited(code: string)
    | HtmlEdited(html: string)
    | PackageEdited(json: string)
    | RunRequested                       // Run button, ctrl/cmd+e
    | SaveRequested(status: JsStr)       // Save button, ctrl/cmd+s with 'public'
    | AutorunToggled
    | AutorunChanged                     // autorunOnChange (no caller in the components)
    | SandboxStarted
    | SandboxFailed
    | SandboxEnded
    | ModulesReported(modules: seq<Module>)
    | ErrorTimerFired(which: Which)
    | ProgressTimerFired(which: Which)
    | AutorunTimerFired(which: Which)
    | ExecTimerFired(which: Which)
    | GistLoaded(loaded: Result<Gist, Error>)
    | GistSaved(saved: Result<SaveResponse, Error>)  // gist id: the query's, which no event changes

  /** Both constructors: `BundleHOC`'s, then `Main`'s as it first renders. */
  function Initial(env: Env, query: Query): (r: Result<AppState, Error>)
    ensures r.Err? <==> env.babel(env.defaultCode).Thrown?
    ensures r.Ok? ==> r.value.main == InitialMain() && r.value.hoc.query == query && !r.value.hoc.bundling
    ensures r.Ok? ==> Init(env, query) == Ok(r.value.hoc)
  {
    match Init(env, query)
    case Err(e) => Err(e)
    case Ok(hoc) => Ok(AppState(hoc, InitialMain()))
  }

  /** The mount: `Main.componentDidMount` runs first (it is the child), then
      `BundleHOC.componentDidMount`, unless the first one threw. */
  function Mount(env: Env, a: AppState, session: Option<Session>): (r: Run<AppState>)
    ensures r.Threw? <==> !Truthy(GistParam(a.hoc)) && session.None?
    ensures r.Threw? ==> r.next == a
    ensures Truthy(GistParam(a.hoc)) ==> r.next.main == a.main && r.next.hoc == a.hoc
    ensures r.Ran? && !Truthy(GistParam(a.hoc)) ==>
      r.next.hoc == GetSessionBundle(env, a.hoc, session)
      && r.next.main.autorunIsOn == (a.main.autorunIsOn || session.value.autorun)
    ensures r.Ran? && Consistent(env, a.hoc) ==> Consistent(env, r.next.hoc)
    ensures r.next.main.(autorunIsOn := a.main.autorunIsOn) == a.main
    ensures r.Threw? ==> r.effects == []
    ensures r.Ran? ==> r.effects == BundleHoc.OnMount(env, a.hoc, session).effects
  {
    match MainView.OnMount(a.main, a.hoc.query, session)
    case Threw(m, effects, fault) => Threw(a.(main := m), effects, fault)
    case Ran(m, effects) =>
      var h := BundleHoc.OnMount(env, a.hoc, session);
      Ran(AppState(h.next, m), effects + h.effects)
  }

  function Lift(a: AppState, r: Reaction<HocState>): Reaction<AppState>
  {
    Reaction(a.(hoc := r.next), r.effects)
  }

  /** One event, with the save, sandbox-error and sandbox-end handlers
      corrected. The query is never changed, and events aimed at
      `BundleHOC` leave `Main`'s state alone. */
  function Step(env: Env, a: AppState, ev: Event): (r: Reaction<AppState>)
    ensures r.next.hoc.query == a.hoc.query
    ensures !(ev.AutorunToggled? || ev.AutorunChanged? || ev.AutorunTimerFired?) ==> r.next.main == a.main
  {
    match ev
    case CodeEdited(code) => Lift(a, OnCodeChange(env, a.hoc, code))
    case HtmlEdited(html) => Lift(a, OnHtmlChange(a.hoc, html))
    case PackageEdited(json) => Lift(a, OnPackageChange(a.hoc, json))
    case RunRequested => Lift(a, MakeBundle(env, a.hoc))
    case SaveRequested(status) => Lift(a, SaveGist(env, a.hoc, status))
    case AutorunToggled =>
      var t := ToggleAutorun(a.main);
      Reaction(a.(main := t.next), t.effects)
    case AutorunChanged => Reaction(a.(main := AutorunOnChange(a.main)), [])
    case AutorunTimerFired(w) =>
      (match Fire(a.main.autorunDelay, w)
       case None => Reaction(a, [])
       case Some(fired) => Lift(a.(main := a.main.(autorunDelay := fired.1)), MakeBundle(env, a.hoc)))
    case SandboxStarted => Lift(a, OnStartBundle(a.hoc))
    case SandboxFailed => Lift(a, OnErrorBundle(a.hoc))
    case SandboxEnded => Lift(a, OnEndBundle(a.hoc))
    case ModulesReported(modules) => Reaction(a.(hoc := UpdateDependencies(env, a.hoc, modules)), [])
    case ErrorTimerFired(w) => Reaction(a.(hoc := FireErrorDelay(a.hoc, w)), [])
    case ProgressTimerFired(w) => Lift(a, FireProgressDelay(a.hoc, w))
    case ExecTimerFired(w) => Lift(a, FireExecDelay(env, a.hoc, w))
    case GistLoaded(result) => Lift(a, OnGistLoaded(env, a.hoc, result))
    case GistSaved(result) => Lift(a, OnGistSaved(a.hoc, GistParam(a.hoc), result))
  }

  function LiftRun(a: AppState, r: Run<HocState>): Run<AppState>
  {
    match r
    case Ran(h, effects) => Ran(a.(hoc := h), effects)
    case Threw(h, effects, fault) => Threw(a.(hoc := h), effects, fault)
  }

  /** One event, routed to the handler the components wire to it as the
      code stands: a save throws before recording its status, a sandbox
      error leaves the progress timer armed, and a sandbox end throws when a
      status is pending. Every other event is handled as in `Step`. */
  function StepAsWritten(env: Env, a: AppState, ev: Event): (r: Run<AppState>)
    ensures r.next.hoc.query == a.hoc.query
    ensures r.next.hoc.gistStatus == a.hoc.gistStatus
    ensures r.Threw? ==> ev.SaveRequested? || (ev.SandboxEnded? && Truthy(a.hoc.gistStatus))
    ensures ev.SandboxEnded? && Truthy(a.hoc.gistStatus) ==> r.Threw?
    ensures !(ev.AutorunToggled? || ev.AutorunChanged? || ev.AutorunTimerFired?) ==> r.next.main == a.main
    ensures ev.SaveRequested? ==> r.Threw? && r.next == a && r.effects == [ShowProgress]
    ensures !(ev.SaveRequested? || ev.SandboxFailed? || ev.SandboxEnded?) ==>
      r == Ran(Step(env, a, ev).next, Step(env, a, ev).effects)
  {
    match ev
    case SaveRequested(status) => LiftRun(a, SaveGistAsWritten(a.hoc, status))
    case SandboxFailed =>
      var h := OnErrorBundleAsWritten(a.hoc);
      Ran(a.(hoc := h.next), h.effects)
    case SandboxEnded => LiftRun(a, OnEndBundleAsWritten(a.hoc))
    case _ =>
      var r := Step(env, a, ev);
      Ran(r.next, r.effects)
  }

  /** Starting from defaults whose code is not empty, the cached transpiled
      code is current. */
  lemma InitialIsConsistent(env: Env, query: Query)
    requires env.defaultCode != ""
    requires env.babel(env.defaultCode).Compiled?
    ensures Initial(env, query).Ok? && Consistent(env, Initial(env, query).value.hoc)
  {
  }

  /** No event leaves the transpiled code stale: only the paths that change
      the code set it, and they set it from the code. */
  lemma StepKeepsTranspiledCodeCurrent(env: Env, a: AppState, ev: Event)
    requires Consistent(env, a.hoc)
    ensures Consistent(env, Step(env, a, ev).next.hoc)
  {
  }

  /** The program as written keeps the transpiled code current as well. */
  lemma StepAsWrittenKeepsTranspiledCodeCurrent(env: Env, a: AppState, ev: Event)
    requires Consistent(env, a.hoc)
    ensures Consistent(env, StepAsWritten(env, a, ev).next.hoc)
  {
    if !(ev.SaveRequested? || ev.SandboxFailed? || ev.SandboxEnded?) {
      StepKeepsTranspiledCodeCurrent(env, a, ev);
    }
  }

  /** The pending error-display timer (at most one) carries the error of
      the code now in the editor. */
  predicate ErrorTimerCurrent(env: Env, s: HocState)
  {
    s.errorDelay.stray == []
    && (s.errorDelay.held.Some? ==> TranspileCodeAndCatch(env, s.editorsData.code).error == s.errorDelay.held)
  }

  /** Every event but a gist load keeps the pending error display in step
      with the code; loading a gist replaces the code without cancelling it. */
  lemma StepKeepsErrorTimerCurrent(env: Env, a: AppState, ev: Event)
    requires ErrorTimerCurrent(env, a.hoc)
    requires !ev.GistLoaded?
    ensures ErrorTimerCurrent(env, Step(env, a, ev).next.hoc)
  {
  }

  /** The program as written keeps the error display in step as well. */
  lemma StepAsWrittenKeepsErrorTimerCurrent(env: Env, a: AppState, ev: Event)
    requires ErrorTimerCurrent(env, a.hoc)
    requires !ev.GistLoaded?
    ensures ErrorTimerCurrent(env, StepAsWritten(env, a, ev).next.hoc)
  {
    if !(ev.SaveRequested? || ev.SandboxFailed? || ev.SandboxEnded?) {
      StepKeepsErrorTimerCurrent(env, a, ev);
    }
  }

  /** A code edit that transpiles cleanly supersedes a pending error: no
      error timer is left, so no later timer event can show the old error. */
  lemma SupersededErrorNeverShown(env: Env, a: AppState, bad: string, good: string, w: Which)
    requires ErrorTimerCurrent(env, a.hoc)
    requires TranspileCodeAndCatch(env, Str(good)).error.None?
    ensures var afterBad := Step(env, a, CodeEdited(bad)).next;
      var afterGood := Step(env, afterBad, CodeEdited(good)).next;
      && Pending(afterGood.hoc.errorDelay) == 0
      && afterGood.hoc.editorsData.error == Blank
      && Step(env, afterGood, ErrorTimerFired(w)).next == afterGood
  {
  }

  /** A code edit Babel rejects shows no error at once; when its timer fires
      the error appears and the code and its transpilation stay as they were. */
  lemma ErrorShownAfterQuietPeriod(env: Env, a: AppState, code: string)
    requires ErrorTimerCurrent(env, a.hoc)
    requires TranspileCodeAndCatch(env, Str(code)).error.Some?
    ensures var edited := Step(env, a, CodeEdited(code)).next;
      var shown := Step(env, edited, ErrorTimerFired(Held)).next;
      && edited.hoc.editorsData.error == Blank
      && shown.hoc.editorsData.error == Raised(TranspileCodeAndCatch(env, Str(code)).error.value)
      && shown.hoc.editorsData.code == Str(code)
      && shown.hoc.editorsData.transpiledCode == edited.hoc.editorsData.transpiledCode
      && Pending(shown.hoc.errorDelay) == 0
  {
  }

  /** The events that end a bundle: sandbox error, sandbox end, gist saved. */
  predicate EndsBundling(ev: Event)
  {
    ev.SandboxFailed? || ev.SandboxEnded? || ev.GistSaved?
  }

  /** Single flight: while bundling, no event but one that ends the bundle
      clears the flag, replaces the bundle or hands the sandbox a new one. */
  lemma BundleFrozenWhileBundling(env: Env, a: AppState, ev: Event)
    requires a.hoc.bundling
    requires !EndsBundling(ev)
    ensures Step(env, a, ev).next.hoc.bundling
    ensures Step(env, a, ev).next.hoc.bundle == a.hoc.bundle
    ensures forall e <- Step(env, a, ev).effects :: !e.RunBundle?
  {
  }

  /** `bundling` is switched on by a progress timer and nothing else. */
  lemma BundlingStartsOnlyByProgressTimer(env: Env, a: AppState, ev: Event)
    requires !a.hoc.bundling
    requires Step(env, a, ev).next.hoc.bundling
    ensures ev.ProgressTimerFired?
  {
  }

  /** As written, too, only the ending events can clear `bundling`, change
      the bundle or hand the sandbox a new one while bundling. */
  lemma BundleFrozenWhileBundlingAsWritten(env: Env, a: AppState, ev: Event)
    requires a.hoc.bundling
    requires !EndsBundling(ev)
    ensures StepAsWritten(env, a, ev).next.hoc.bundling
    ensures StepAsWritten(env, a, ev).next.hoc.bundle == a.hoc.bundle
    ensures forall e <- StepAsWritten(env, a, ev).effects :: !e.RunBundle?
  {
    if !ev.SaveRequested? {
      BundleFrozenWhileBundling(env, a, ev);
    }
  }

  /** As written, too, only a progress timer switches `bundling` on. */
  lemma BundlingStartsOnlyByProgressTimerAsWritten(env: Env, a: AppState, ev: Event)
    requires !a.hoc.bundling
    requires StepAsWritten(env, a, ev).next.hoc.bundling
    ensures ev.ProgressTimerFired?
  {
    if !(ev.SaveRequested? || ev.SandboxFailed? || ev.SandboxEnded?) {
      BundlingStartsOnlyByProgressTimer(env, a, ev);
    }
  }

  /** As written, no event changes the pending gist status: the only
      writer is the save, which throws first. From the initial `undefined`
      status the gist-sync branch of the sandbox end is never taken. */
  lemma GistStatusNeverSetAsWritten(env: Env, a: AppState, ev: Event)
    requires a.hoc.gistStatus == Undef
    ensures StepAsWritten(env, a, ev).next.hoc.gistStatus == Undef
    ensures ev.SandboxEnded? ==> StepAsWritten(env, a, ev).Ran?
    ensures forall e <- StepAsWritten(env, a, ev).effects :: !e.CreateGist? && !e.UpdateGist?
  {
  }

  /** As written, a sandbox error within the progress delay leaves
      `bundling` on once the timer fires; no timer is left, a run request
      then hands the sandbox nothing, and no event short of a sandbox end or
      error (which needs a new bundle) switches it off again. */
  lemma BundlingStuckAsWritten(env: Env, a: AppState, ev: Event)
    requires !a.hoc.bundling && Pending(a.hoc.progressDelay) == 0
    requires !EndsBundling(ev)
    ensures var started := StepAsWritten(env, a, SandboxStarted).next;
      var failed := StepAsWritten(env, started, SandboxFailed).next;
      var stuck := StepAsWritten(env, failed, ProgressTimerFired(Held)).next;
      && stuck.hoc.bundling
      && Pending(stuck.hoc.progressDelay) == 0
      && StepAsWritten(env, stuck, RunRequested) == Ran(stuck, [])
      && StepAsWritten(env, stuck, ev).next.hoc.bundling
  {
    var started := StepAsWritten(env, a, SandboxStarted).next;
    var failed := StepAsWritten(env, started, SandboxFailed).next;
    var stuck := StepAsWritten(env, failed, ProgressTimerFired(Held)).next;
    assert stuck.hoc == FireProgressDelay(OnErrorBundleAsWritten(OnStartBundle(a.hoc).next).next, Held).next;
    BundleFrozenWhileBundlingAsWritten(env, stuck, ev);
  }

  /** With the corrected handlers the same start and error leave `bundling`
      off, and the progress timer has nothing left to fire. */
  lemma BundlingEndsAfterError(env: Env, a: AppState)
    requires !a.hoc.bundling && Pending(a.hoc.progressDelay) == 0
    ensures var started := Step(env, a, SandboxStarted).next;
      var failed := Step(env, started, SandboxFailed).next;
      && !failed.hoc.bundling
      && Step(env, failed, ProgressTimerFired(Held)).next == failed
  {
  }

  /** No event leaves a stray autorun timer behind. */
  lemma AutorunTimerNeverLeaks(env: Env, a: AppState, ev: Event)
    requires a.main.autorunDelay.stray == []
    ensures Step(env, a, ev).next.main.autorunDelay.stray == []
    ensures Pending(Step(env, a, ev).next.main.autorunDelay) <= 1
  {
  }

  /** As written, too, no event leaves a stray autorun timer behind. */
  lemma AutorunTimerNeverLeaksAsWritten(env: Env, a: AppState, ev: Event)
    requires a.main.autorunDelay.stray == []
    ensures StepAsWritten(env, a, ev).next.main.autorunDelay.stray == []
    ensures Pending(StepAsWritten(env, a, ev).next.main.autorunDelay) <= 1
  {
    if !(ev.SaveRequested? || ev.SandboxFailed? || ev.SandboxEnded?) {
      AutorunTimerNeverLeaks(env, a, ev);
    }
  }

  /** A manifest that does not parse blocks the run: the parse error is
      shown, no bundle reaches the sandbox, and bundling stays off. */
  lemma MalformedManifestBlocksBundle(env: Env, a: AppState)
    requires !a.hoc.bundling
    requires ParseManifest(env, a.hoc.editorsData).Err?
    ensures var r := Step(env, a, RunRequested);
      && r.effects == []
      && r.next.hoc.bundle == a.hoc.bundle
      && !r.next.hoc.bundling
      && r.next.hoc.editorsData.error == Raised(ParseManifest(env, a.hoc.editorsData).error)
  {
  }

  /** With the corrected handlers, saving with no gist in the query: the
      save bundles, and the end of that bundle creates exactly one gist with
      the editors and the status,
      clearing the status; a successful create then opens the new gist's
      page and ends bundling. */
  lemma SaveCreatesGistAtEnd(env: Env, a: AppState, status: JsStr, res: SaveResponse)
    requires !a.hoc.bundling && Pending(a.hoc.progressDelay) == 0
    requires !Truthy(GistParam(a.hoc)) && Truthy(status)
    requires ParseManifest(env, a.hoc.editorsData).Ok?
    ensures var saved := Step(env, a, SaveRequested(status));
      var started := Step(env, saved.next, SandboxStarted);
      var ended := Step(env, started.next, SandboxEnded);
      var created := Step(env, ended.next, GistSaved(Ok(res)));
      && saved.effects == [ShowProgress, RunBundle(saved.next.hoc.bundle.value)]
      && ended.effects == [CreateGist(a.hoc.editorsData, status)]
      && ended.next.hoc.gistStatus == Undef
      && Pending(ended.next.hoc.progressDelay) == 0
      && created.effects == [OpenGistPage(res.id), HideAllProgress]
      && !created.next.hoc.bundling
  {
    var saved := Step(env, a, SaveRequested(status));
    var h1 := SaveGist(env, a.hoc, status);
    assert saved.next.hoc == h1.next && saved.effects == h1.effects;
    assert h1.next == a.hoc.(gistStatus := status, bundle := h1.next.bundle);
    var started := Step(env, saved.next, SandboxStarted);
    var h2 := OnStartBundle(h1.next);
    assert started.next.hoc == h2.next;
    assert h2.next.gistStatus == status && h2.next.editorsData == a.hoc.editorsData;
    assert GistParam(h2.next) == GistParam(a.hoc);
    var ended := Step(env, started.next, SandboxEnded);
    var h3 := OnEndBundle(h2.next);
    assert ended.next.hoc == h3.next && ended.effects == h3.effects;
    assert IsSaveCall(h3.effects[0], GistParam(a.hoc), a.hoc.editorsData, status);
    var created := Step(env, ended.next, GistSaved(Ok(res)));
    assert created.effects == OnGistSaved(h3.next, GistParam(a.hoc), Ok(res)).effects;
  }
}

=== FILE: assembly.dfy ===
/** `_getBundle`: parse the manifest and, when it parses, copy the editor
    fields into a new bundle for the sandbox. */
module Assembly {
  import opened Wrappers
  import opened JsValues
  import opened Environment
  import opened Transpile
  import opened Editors

  /** `{ code, raw, html, package }` as handed to the sandbox. */
  datatype Bundle = Bundle(code: JsStr, raw: JsStr, html: JsStr, package: Json)

  /** `JSON.parse(editorsData.json)` */
  function ParseManifest(env: Env, d: EditorsData): Result<Json, Error>
  {
    env.parse(ToText(d.json))
  }

  /** A bundle exactly when the manifest parses; otherwise the parse error. */
  function GetBundle(env: Env, d: EditorsData): (r: Result<Bundle, Error>)
    ensures r.Err? <==> ParseManifest(env, d).Err?
    ensures r.Err? ==> r.error == ParseManifest(env, d).error
    ensures r.Ok? ==> r.value.code == d.transpiledCode && r.value.raw == d.code && r.value.html == d.html
    ensures r.Ok? ==> ParseManifest(env, d) == Ok(r.value.package)
  {
    match ParseManifest(env, d)
    case Err(e) => Err(e)
    case Ok(json) => Ok(Bundle(d.transpiledCode, d.code, d.html, json))
  }

  /** When the transpiled code is current, the bundle runs what the
      transpiler made of the raw code it carries. */
  lemma BundleRunsTranspiledRawCode(env: Env, d: EditorsData)
    requires d.transpiledCode == TranspileCodeAndCatch(env, d.code).code
    requires ParseManifest(env, d).Ok?
    ensures GetBundle(env, d).Ok?
    ensures GetBundle(env, d).value.code == TranspileCodeAndCatch(env, GetBundle(env, d).value.raw).code
  {
  }
}

=== FILE: bundle_hoc.dfy ===
/** The `BundleHOC` component: the editor state, the bundle handed to the
    sandbox, the `bundling` flag, the pending gist status and the three
    timer sites (error display, progress display, run-on-load), with one
    function per handler. Where a handler as written throws or loses data,
    the `AsWritten` member models the code as it stands and the plain
    member the evidently intended behaviour; `App.StepAsWritten` runs the
    first and `App.Step` the second. */
module BundleHoc {
  import opened Wrappers
  import opened JsValues
  import opened Environment
  import opened Timers
  import opened Transpile
  import opened Editors
  import opened Assembly
  import opened DependencyMerge
  import opened Effects

  datatype HocState = HocState(
    query: Query,
    bundle: Option<Bundle>,      // None: the initial empty `{}`
    bundling: bool,
    editorsData: EditorsData,
    gistStatus: JsStr,           // this.gistStatus
    errorDelay: Timer<Error>,    // this.errorDelay, carrying the error to show
    progressDelay: Timer<()>,    // this.progressDelay
    execDelay: Timer<()>)        // the unstored run-on-load timer

  /** The cached transpiled code is what the catching transpiler makes of
      the current code. */
  predicate Consistent(env: Env, s: HocState)
  {
    s.editorsData.transpiledCode == TranspileCodeAndCatch(env, s.editorsData.code).code
  }

  /** `query.gist` */
  function GistParam(s: HocState): JsStr
  {
    Param(s.query, "gist")
  }

  /** The constructor. It transpiles the default code without catching, so
      a Babel failure there escapes the constructor. */
  function Init(env: Env, query: Query): (r: Result<HocState, Error>)
    ensures r.Err? <==> env.babel(env.defaultCode).Thrown?
    ensures r.Err? ==> r.error == env.babel(env.defaultCode).error
    ensures r.Ok? ==> r.value.query == query && r.value.bundle.None? && !r.value.bundling && r.value.gistStatus == Undef
    ensures r.Ok? ==>
      r.value.editorsData.code == Str(env.defaultCode) && r.value.editorsData.html == Str(env.defaultHtml)
      && r.value.editorsData.json == Str(env.defaultJson) && r.value.editorsData.error == Undefined
    ensures r.Ok? ==> Pending(r.value.errorDelay) == 0 && Pending(r.value.progressDelay) == 0 && Pending(r.value.execDelay) == 0
    ensures r.Ok? && env.defaultCode != "" ==> Consistent(env, r.value)
    ensures r.Ok? ==> r.value.editorsData.transpiledCode == Str(env.babel(env.defaultCode).code)
  {
    match env.babel(env.defaultCode)
    case Thrown(e) => Err(e)
    case Compiled(out) =>
      Ok(HocState(query, None, false,
        EditorsData(Str(env.defaultCode), Str(out), Str(env.defaultHtml), Str(env.defaultJson), Undefined),
        Undef, NoTimer(), NoTimer(), NoTimer()))
  }

  /** `getSessionBundle()`: with a session, its code, html and json replace
      the editor fields (absent ones become `undefined`), and the code is
      transpiled afresh. */
  function GetSessionBundle(env: Env, s: HocState, session: Option<Session>): (r: HocState)
    ensures session.None? ==> r == s
    ensures r.(editorsData := s.editorsData) == s
    ensures session.Some? ==>
      Consistent(env, r)
      && r.editorsData.code == session.value.code && r.editorsData.html == session.value.html
      && r.editorsData.json == session.value.json
      && r.editorsData.error == SlotOf(TranspileCodeAndCatch(env, session.value.code).error)
  {
    match session
    case None => s
    case Some(ss) =>
      var t := TranspileCodeAndCatch(env, ss.code);
      s.(editorsData := UpdateEditorsData(s.editorsData,
        Patch(Some(ss.code), Some(t.code), Some(ss.html), Some(ss.json), Some(SlotOf(t.error)))))
  }

  /** `componentDidMount()`: a `gist` query parameter selects the saved
      gist (at `rev`, else `sha`) and switches the session store off;
      otherwise the session store supplies the editors. */
  function OnMount(env: Env, s: HocState, session: Option<Session>): (r: Reaction<HocState>)
    ensures Truthy(GistParam(s)) ==>
      r.next == s
      && r.effects == [TurnOffSession, ShowProgress, FetchGist(GistParam(s).s, Or(Param(s.query, "rev"), Param(s.query, "sha")))]
    ensures !Truthy(GistParam(s)) ==> r.effects == [] && r.next == GetSessionBundle(env, s, session)
  {
    if Truthy(GistParam(s)) then
      Reaction(s, [TurnOffSession, ShowProgress, FetchGist(GistParam(s).s, Or(Param(s.query, "rev"), Param(s.query, "sha")))])
    else
      Reaction(GetSessionBundle(env, s, session), [])
  }

  /** The `getGist` callback: on success the gist's fields replace the
      editor fields, and `execute` or `exec` in the query schedules a run. */
  function OnGistLoaded(env: Env, s: HocState, result: Result<Gist, Error>): (r: Reaction<HocState>)
    ensures result.Err? ==> r == Reaction(s, [HideProgress])
    ensures result.Ok? ==>
      r.effects == [HideProgress] && Consistent(env, r.next)
      && r.next.editorsData.code == result.value.code && r.next.editorsData.html == result.value.html
      && r.next.editorsData.json == result.value.json
      && r.next.editorsData.error == SlotOf(TranspileCodeAndCatch(env, result.value.code).error)
    ensures result.Ok? ==> r.next.(editorsData := s.editorsData, execDelay := s.execDelay) == s
    ensures result.Ok? ==>
      ((Truthy(Param(s.query, "execute")) || Truthy(Param(s.query, "exec"))) <==> Pending(r.next.execDelay) == Pending(s.execDelay) + 1)
    ensures r.next.execDelay.held == s.execDelay.held
    ensures result.Ok? ==>
      r.next.execDelay ==
      if Truthy(Param(s.query, "execute")) || Truthy(Param(s.query, "exec")) then Schedule(s.execDelay, ()) else s.execDelay
  {
    match result
    case Err(_) => Reaction(s, [HideProgress])
    case Ok(g) =>
      var t := TranspileCodeAndCatch(env, g.code);
      var loaded := s.(editorsData := UpdateEditorsData(s.editorsData,
        Patch(Some(g.code), Some(t.code), Some(g.html), Some(g.json), Some(SlotOf(t.error)))));
      var run := Truthy(Or(Param(s.query, "execute"), Param(s.query, "exec")));
      Reaction(if run then loaded.(execDelay := Schedule(s.execDelay, ())) else loaded, [HideProgress])
  }

  /** `onCodeChange(code)`: persist the code, cancel the pending error
      display, show the new code and its transpilation at once with the
      error cleared, and arm a timer that will show the error only if
      Babel rejected the code. */
  function OnCodeChange(env: Env, s: HocState, code: string): (r: Reaction<HocState>)
    ensures r.effects == [SaveToSession("code", Text(code))]
    ensures r.next.editorsData.code == Str(code) && Consistent(env, r.next)
    ensures r.next.editorsData.error == Blank
    ensures r.next.editorsData.html == s.editorsData.html && r.next.editorsData.json == s.editorsData.json
    ensures r.next.errorDelay.held == TranspileCodeAndCatch(env, Str(code)).error
    ensures r.next.errorDelay.stray == s.errorDelay.stray
    ensures r.next.(editorsData := s.editorsData, errorDelay := s.errorDelay) == s
  {
    var cleared := Clear(s.errorDelay);
    var t := TranspileCodeAndCatch(env, Str(code));
    var timers := if t.error.Some? then Arm(cleared, t.error.value) else cleared;
    Reaction(
      s.(errorDelay := timers,
         editorsData := UpdateEditorsData(s.editorsData, Patch(Some(Str(code)), Some(t.code), None, None, Some(Blank)))),
      [SaveToSession("code", Text(code))])
  }

  /** An error-display timer fires: the error it captured becomes visible. */
  function FireErrorDelay(s: HocState, w: Which): (r: HocState)
    ensures Fire(s.errorDelay, w).None? ==> r == s
    ensures Fire(s.errorDelay, w).Some? ==>
      r.editorsData == s.editorsData.(error := Raised(Fire(s.errorDelay, w).value.0))
      && Pending(r.errorDelay) == Pending(s.errorDelay) - 1
      && r.errorDelay == Fire(s.errorDelay, w).value.1
      && r.(editorsData := s.editorsData, errorDelay := s.errorDelay) == s
  {
    match Fire(s.errorDelay, w)
    case None => s
    case Some(fired) =>
      s.(errorDelay := fired.1, editorsData := UpdateEditorsData(s.editorsData, NoChange.(error := Some(Raised(fired.0)))))
  }

  /** `onHTMLChange(html)`: persist, then set only `html` and clear the error. */
  function OnHtmlChange(s: HocState, html: string): (r: Reaction<HocState>)
    ensures r.effects == [SaveToSession("html", Text(html))]
    ensures r.next.editorsData.html == Str(html) && r.next.editorsData.error == Blank
    ensures r.next.editorsData.(html := s.editorsData.html, error := s.editorsData.error) == s.editorsData
    ensures r.next.(editorsData := s.editorsData) == s
  {
    Reaction(s.(editorsData := UpdateEditorsData(s.editorsData, NoChange.(html := Some(Str(html)), error := Some(Blank)))),
      [SaveToSession("html", Text(html))])
  }

  /** `onPackageChange(json)`: persist, then set only `json` and clear the error. */
  function OnPackageChange(s: HocState, json: string): (r: Reaction<HocState>)
    ensures r.effects == [SaveToSession("json", Text(json))]
    ensures r.next.editorsData.json == Str(json) && r.next.editorsData.error == Blank
    ensures r.next.editorsData.(json := s.editorsData.json, error := s.editorsData.error) == s.editorsData
    ensures r.next.(editorsData := s.editorsData) == s
  {
    Reaction(s.(editorsData := UpdateEditorsData(s.editorsData, NoChange.(json := Some(Str(json)), error := Some(Blank)))),
      [SaveToSession("json", Text(json))])
  }

  /** `makeBundle()`: nothing while bundling; otherwise a manifest that
      does not parse becomes the visible error and the bundle stays as it
      was, and one that parses yields a new bundle for the sandbox. */
  function MakeBundle(env: Env, s: HocState): (r: Reaction<HocState>)
    ensures s.bundling ==> r == Reaction(s, [])
    ensures !s.bundling && ParseManifest(env, s.editorsData).Err? ==>
      r.effects == [] && r.next == s.(editorsData := s.editorsData.(error := Raised(ParseManifest(env, s.editorsData).error)))
    ensures !s.bundling && ParseManifest(env, s.editorsData).Ok? ==>
      r.next.bundle.Some? && r.next == s.(bundle := r.next.bundle) && r.effects == [RunBundle(r.next.bundle.value)]
      && r.next.bundle.value.code == s.editorsData.transpiledCode && r.next.bundle.value.raw == s.editorsData.code
      && r.next.bundle.value.html == s.editorsData.html
      && ParseManifest(env, s.editorsData) == Ok(r.next.bundle.value.package)
  {
    if s.bundling then Reaction(s, [])
    else
      match GetBundle(env, s.editorsData)
      case Err(e) => Reaction(s.(editorsData := UpdateEditorsData(s.editorsData, NoChange.(error := Some(Raised(e))))), [])
      case Ok(b) => Reaction(s.(bundle := Some(b)), [RunBundle(b)])
  }

  /** The run-on-load timer fires and requests a bundle. */
  function FireExecDelay(env: Env, s: HocState, w: Which): (r: Reaction<HocState>)
    ensures Fire(s.execDelay, w).None? ==> r == Reaction(s, [])
    ensures Fire(s.execDelay, w).Some? ==>
      Pending(r.next.execDelay) == Pending(s.execDelay) - 1
      && r.next.execDelay == Fire(s.execDelay, w).value.1
      && r == MakeBundle(env, s.(execDelay := r.next.execDelay))
  {
    match Fire(s.execDelay, w)
    case None => Reaction(s, [])
    case Some(fired) => MakeBundle(env, s.(execDelay := fired.1))
  }

  /** The own properties of `bundle.package`; none while the bundle is
      still the initial `{}`. */
  function PackageProps(bundle: Option<Bundle>): map<string, Json>
  {
    match bundle
    case None => map[]
    case Some(b) => OwnProps(b.package)
  }

  /** `updateDependencies(modules)`: only `json` changes, to the stringified
      package with its dependencies replaced by the reported modules. */
  function UpdateDependencies(env: Env, s: HocState, modules: seq<Module>): (r: HocState)
    ensures r == s.(editorsData := s.editorsData.(json := r.editorsData.json))
    ensures ReadsBack(env, JObj(UpdatedPackage(PackageProps(s.bundle), modules))) ==>
      env.parse(ToText(r.editorsData.json)) == Ok(JObj(UpdatedPackage(PackageProps(s.bundle), modules)))
  {
    var pkg := JObj(UpdatedPackage(PackageProps(s.bundle), modules));
    s.(editorsData := UpdateEditorsData(s.editorsData, NoChange.(json := Some(Str(env.stringify(pkg))))))
  }

  /** Read back, the rewritten manifest lists exactly the reported module
      names, maps each name to the version of the last module reported
      under it, and keeps every other key of the bundle's package. */
  lemma {:induction false} MergedManifestReadsBack(env: Env, s: HocState, modules: seq<Module>)
    requires ReadsBack(env, JObj(UpdatedPackage(PackageProps(s.bundle), modules)))
    ensures var parsed := env.parse(ToText(UpdateDependencies(env, s, modules).editorsData.json));
      && parsed.Ok? && parsed.value.JObj?
      && "dependencies" in parsed.value.fields
      && parsed.value.fields["dependencies"].JObj?
      && parsed.value.fields["dependencies"].fields.Keys == (set j | 0 <= j < |modules| :: modules[j].name)
      && (forall i :: IsLastWrite(modules, i) ==>
            parsed.value.fields["dependencies"].fields[modules[i].name] == JStr(modules[i].version))
      && (forall k :: k != "dependencies" ==> (k in parsed.value.fields <==> k in PackageProps(s.bundle)))
      && (forall k :: k != "dependencies" && k in PackageProps(s.bundle) ==>
            parsed.value.fields[k] == PackageProps(s.bundle)[k])
  {
    LastWriteWins(modules);
  }

  /** `onStartBundle()`: nothing while bundling; otherwise a new progress
      timer is armed over the field, leaving any earlier one running. */
  function OnStartBundle(s: HocState): (r: Reaction<HocState>)
    ensures s.bundling ==> r == Reaction(s, [])
    ensures !s.bundling ==>
      r.effects == [] && r.next == s.(progressDelay := r.next.progressDelay)
      && r.next.progressDelay.held.Some? && Pending(r.next.progressDelay) == Pending(s.progressDelay) + 1
      && (s.progressDelay.held.Some? ==> |r.next.progressDelay.stray| == |s.progressDelay.stray| + 1)
  {
    if s.bundling then Reaction(s, [])
    else Reaction(s.(progressDelay := Arm(s.progressDelay, ())), [])
  }

  /** A progress timer fires: `bundling` becomes true and progress shows. */
  function FireProgressDelay(s: HocState, w: Which): (r: Reaction<HocState>)
    ensures Fire(s.progressDelay, w).None? ==> r == Reaction(s, [])
    ensures Fire(s.progressDelay, w).Some? ==>
      r.next.bundling && r.effects == [ShowProgress]
      && Pending(r.next.progressDelay) == Pending(s.progressDelay) - 1
      && r.next.progressDelay == Fire(s.progressDelay, w).value.1
      && r.next.(bundling := s.bundling, progressDelay := s.progressDelay) == s
  {
    match Fire(s.progressDelay, w)
    case None => Reaction(s, [])
    case Some(fired) => Reaction(s.(bundling := true, progressDelay := fired.1), [ShowProgress])
  }

  /** `_finishBundling()` */
  function FinishBundling(s: HocState): (r: Reaction<HocState>)
    ensures !r.next.bundling && r.effects == [HideAllProgress]
    ensures r.next.(bundling := s.bundling) == s
  {
    Reaction(s.(bundling := false), [HideAllProgress])
  }

  /** `onErrorBundle(err)` as written: bundling ends but the progress
      timer stays armed. */
  function OnErrorBundleAsWritten(s: HocState): (r: Reaction<HocState>)
    ensures !r.next.bundling && r.effects == [HideAllProgress]
    ensures r.next.progressDelay == s.progressDelay
    ensures r.next == s.(bundling := false)
  {
    FinishBundling(s)
  }

  /** As written, an error reported before the progress delay elapses lets
      the progress timer fire afterwards: `bundling` is then true with no
      timer or sandbox event left to clear it, and `makeBundle` and
      `onStartBundle` do nothing. */
  lemma ErrorBeforeProgressLeavesBundlingStuck(env: Env, s: HocState)
    requires !s.bundling && Pending(s.progressDelay) == 0
    ensures var started := OnStartBundle(s).next;
      var failed := OnErrorBundleAsWritten(started).next;
      var fired := FireProgressDelay(failed, Held).next;
      && fired.bundling
      && Pending(fired.progressDelay) == 0
      && MakeBundle(env, fired) == Reaction(fired, [])
      && OnStartBundle(fired) == Reaction(fired, [])
  {
  }

  /** `onErrorBundle(err)`, also cancelling the progress timer as
      `onEndBundle` does. */
  function OnErrorBundle(s: HocState): (r: Reaction<HocState>)
    ensures !r.next.bundling && r.effects == [HideAllProgress]
    ensures r.next.progressDelay.held.None? && r.next.progressDelay.stray == s.progressDelay.stray
    ensures r.next.(bundling := s.bundling, progressDelay := s.progressDelay) == s
  {
    FinishBundling(s.(progressDelay := Clear(s.progressDelay)))
  }

  /** With the progress timer cancelled, the same sequence ends with
      bundling off, and a held-timer firing has nothing left to fire. */
  lemma ErrorBeforeProgressEndsBundling(env: Env, s: HocState)
    requires !s.bundling && Pending(s.progressDelay) == 0
    ensures var started := OnStartBundle(s).next;
      var failed := OnErrorBundle(started).next;
      && !failed.bundling
      && Pending(failed.progressDelay) == 0
      && FireProgressDelay(failed, Held) == Reaction(failed, [])
  {
  }

  /** Cancelling the held timer is not enough when two bundles start
      within the progress delay: the first start's timer is stray, the
      ends of both bundles cancel only the second one, and the stray timer
      then switches `bundling` on with no bundle left to end it. This
      holds of the corrected handlers too. */
  lemma OverlappingStartsLeaveBundlingOn(s: HocState)
    requires !s.bundling && Pending(s.progressDelay) == 0 && !Truthy(s.gistStatus)
    ensures var first := OnStartBundle(s).next;
      var second := OnStartBundle(first).next;
      var ended := OnEndBundle(OnEndBundle(second).next).next;
      var fired := FireProgressDelay(ended, Stray(0)).next;
      && !ended.bundling
      && Pending(ended.progressDelay) == 1
      && fired.bundling
      && Pending(fired.progressDelay) == 0
  {
  }

  /** `e` is the create-or-update call lines up for `gistId`. */
  predicate IsSaveCall(e: Effect, gistId: JsStr, data: EditorsData, status: JsStr)
  {
    if Truthy(gistId) then e == UpdateGist(gistId.s, data, status) else e == CreateGist(data, status)
  }

  /** The sync part of `onEndBundle` as written: `setGistStatus()` clears
      the status before `this.gistStatus` is read for the call. */
  function GistSyncAsWritten(s: HocState, gistId: JsStr): (r: Reaction<HocState>)
    ensures r.next == s.(gistStatus := Undef)
    ensures |r.effects| == 1 && IsSaveCall(r.effects[0], gistId, s.editorsData, Undef)
  {
    var cleared := s.(gistStatus := Undef);
    if Truthy(gistId) then Reaction(cleared, [UpdateGist(gistId.s, s.editorsData, cleared.gistStatus)])
    else Reaction(cleared, [CreateGist(s.editorsData, cleared.gistStatus)])
  }

  /** As written the gist service never learns the requested visibility. */
  lemma GistSyncAsWrittenDropsStatus(s: HocState, gistId: JsStr)
    requires Truthy(s.gistStatus)
    ensures GistSyncAsWritten(s, gistId).effects[0].status != s.gistStatus
  {
  }

  /** The sync part of `onEndBundle`, passing the status that was pending
      and clearing it so a later bundle does not sync again. */
  function GistSync(s: HocState, gistId: JsStr): (r: Reaction<HocState>)
    ensures r.next == s.(gistStatus := Undef)
    ensures |r.effects| == 1 && IsSaveCall(r.effects[0], gistId, s.editorsData, s.gistStatus)
  {
    var status := s.gistStatus;
    var cleared := s.(gistStatus := Undef);
    if Truthy(gistId) then Reaction(cleared, [UpdateGist(gistId.s, s.editorsData, status)])
    else Reaction(cleared, [CreateGist(s.editorsData, status)])
  }

  /** `onEndBundle()` as written: with a status pending it reads
      `this.query.gist`, and `this.query` is never assigned, so it throws
      before syncing, leaving the status pending and bundling unchanged. */
  function OnEndBundleAsWritten(s: HocState): (r: Run<HocState>)
    ensures r.next.progressDelay == Clear(s.progressDelay)
    ensures r.Threw? <==> Truthy(s.gistStatus)
    ensures r.Threw? ==> r.effects == [] && r.next == s.(progressDelay := Clear(s.progressDelay))
    ensures r.Ran? ==>
      !r.next.bundling && r.effects == [HideAllProgress]
      && r.next == s.(progressDelay := Clear(s.progressDelay), bundling := false)
  {
    var s1 := s.(progressDelay := Clear(s.progressDelay));
    if Truthy(s.gistStatus) then Threw(s1, [], TypeError("Cannot read property 'gist' of undefined"))
    else
      var done := FinishBundling(s1);
      Ran(done.next, done.effects)
  }

  /** `onEndBundle()` reading the query from the component state: cancel
      the progress timer; with no status pending, finish bundling; with
      one, clear it and issue exactly one update (gist id in the query) or
      create (none) carrying the editors and that status. */
  function OnEndBundle(s: HocState): (r: Reaction<HocState>)
    ensures r.next.progressDelay == Clear(s.progressDelay)
    ensures !Truthy(s.gistStatus) ==>
      !r.next.bundling && r.effects == [HideAllProgress]
      && r.next == s.(progressDelay := Clear(s.progressDelay), bundling := false)
    ensures Truthy(s.gistStatus) ==>
      r.next == s.(progressDelay := Clear(s.progressDelay), gistStatus := Undef)
      && |r.effects| == 1 && IsSaveCall(r.effects[0], GistParam(s), s.editorsData, s.gistStatus)
  {
    var s1 := s.(progressDelay := Clear(s.progressDelay));
    if Truthy(s.gistStatus) then GistSync(s1, GistParam(s)) else FinishBundling(s1)
  }

  /** The create/update callback, with the gist id it captured: an error
      changes nothing; success opens the new gist's page when the save
      created or forked one, then finishes bundling. */
  function OnGistSaved(s: HocState, gistId: JsStr, result: Result<SaveResponse, Error>): (r: Reaction<HocState>)
    ensures result.Err? ==> r == Reaction(s, [])
    ensures result.Ok? ==> r.next == s.(bundling := false)
    ensures result.Ok? ==> 1 <= |r.effects| <= 2 && r.effects[|r.effects| - 1] == HideAllProgress
    ensures result.Ok? ==> (OpenGistPage(result.value.id) in r.effects <==> !Truthy(gistId) || result.value.isFork)
    ensures result.Ok? && (!Truthy(gistId) || result.value.isFork) ==>
      r.effects == [OpenGistPage(result.value.id), HideAllProgress]
    ensures result.Ok? && Truthy(gistId) && !result.value.isFork ==> r.effects == [HideAllProgress]
  {
    match result
    case Err(_) => Reaction(s, [])
    case Ok(res) =>
      var open := if !Truthy(gistId) || res.isFork then [OpenGistPage(res.id)] else [];
      var done := FinishBundling(s);
      Reaction(done.next, open + done.effects)
  }
}

=== FILE: dependency_merge.dfy ===
/** `updateDependencies`' manifest rewrite: the modules the sandbox reports
    are folded into a name-to-version map (a later module with the same
    name overwrites an earlier one), which replaces the `dependencies` key
    of the package the current bundle was built with. */
module DependencyMerge {
  import opened JsValues

  /** One `{ name, version }` entry of the sandbox's module report. */
  datatype Module = Module(name: string, version: string)

  /** `modules.reduce((memo, mod) => { memo[mod.name] = mod.version; return memo; }, {})` */
  function DependencyMap(modules: seq<Module>): (deps: map<string, Json>)
    ensures deps.Keys == set i | 0 <= i < |modules| :: modules[i].name
  {
    if |modules| == 0 then map[]
    else
      var init := modules[..|modules| - 1];
      var last := modules[|modules| - 1];
      var deps := DependencyMap(init)[last.name := JStr(last.version)];
      assert (set i | 0 <= i < |modules| :: modules[i].name)
          == (set i | 0 <= i < |init| :: init[i].name) + {last.name};
      deps
  }

  /** Module `i` is the last one of its name in the report. */
  ghost predicate IsLastWrite(modules: seq<Module>, i: int)
  {
    0 <= i < |modules| && forall j :: i < j < |modules| ==> modules[j].name != modules[i].name
  }

  /** Every name maps to the version of the last module with that name. */
  lemma {:induction false} LastWriteWins(modules: seq<Module>)
    ensures forall i :: IsLastWrite(modules, i) ==>
      modules[i].name in DependencyMap(modules) && DependencyMap(modules)[modules[i].name] == JStr(modules[i].version)
  {
    if |modules| > 0 {
      var init := modules[..|modules| - 1];
      LastWriteWins(init);
      forall i | IsLastWrite(modules, i)
        ensures DependencyMap(modules)[modules[i].name] == JStr(modules[i].version)
      {
        if i < |modules| - 1 {
          assert IsLastWrite(init, i);
          assert modules[|modules| - 1].name != modules[i].name;
        }
      }
    }
  }

  /** A single reported module becomes the whole dependency map; of two
      reports of one name, the later version is kept. */
  lemma MergeExamples()
    ensures DependencyMap([Module("left-pad", "1.0.0")]) == map["left-pad" := JStr("1.0.0")]
    ensures DependencyMap([Module("react", "15.0.0"), Module("react", "15.3.2")]) == map["react" := JStr("15.3.2")]
  {
    var one := [Module("left-pad", "1.0.0")];
    assert one[..0] == [];
    var two := [Module("react", "15.0.0"), Module("react", "15.3.2")];
    assert two[..1] == [Module("react", "15.0.0")];
    assert two[..1][..0] == [];
  }

  /** `Object.assign({}, bundle.package, { dependencies })` given the own
      properties of `bundle.package`. */
  function UpdatedPackage(props: map<string, Json>, modules: seq<Module>): (pkg: map<string, Json>)
    ensures "dependencies" in pkg && pkg["dependencies"] == JObj(DependencyMap(modules))
    ensures forall k :: k != "dependencies" ==> (k in pkg <==> k in props)
    ensures forall k :: k != "dependencies" && k in props ==> pkg[k] == props[k]
  {
    props["dependencies" := JObj(DependencyMap(modules))]
  }
}

=== FILE: editors.dfy ===
/** The `editorsData` record and `_updateEditorsData`, which merges the
    given keys over the current record the way `Object.assign` does. */
module Editors {
  import opened Wrappers
  import opened JsValues

  /** The `error` field: `void 0` at start, `''` after an edit, or an
      error object to display. */
  datatype ErrorSlot = Undefined | Blank | Raised(error: Error)

  /** An optional error as the `error` field stores it. */
  function SlotOf(e: Option<Error>): ErrorSlot
  {
    match e
    case None => Undefined
    case Some(x) => Raised(x)
  }

  datatype EditorsData = EditorsData(
    code: JsStr,
    transpiledCode: JsStr,
    html: JsStr,
    json: JsStr,
    error: ErrorSlot)

  /** The object literal handed to `_updateEditorsData`: `None` for a key
      it does not name. */
  datatype Patch = Patch(
    code: Option<JsStr>,
    transpiledCode: Option<JsStr>,
    html: Option<JsStr>,
    json: Option<JsStr>,
    error: Option<ErrorSlot>)

  const NoChange: Patch := Patch(None, None, None, None, None)

  function Override<T>(o: Option<T>, current: T): T
  {
    if o.Some? then o.value else current
  }

  /** `Object.assign({}, editorsData, newData)` */
  function UpdateEditorsData(d: EditorsData, p: Patch): (r: EditorsData)
    ensures p.code.Some? ==> r.code == p.code.value
    ensures p.code.None? ==> r.code == d.code
    ensures p.transpiledCode.Some? ==> r.transpiledCode == p.transpiledCode.value
    ensures p.transpiledCode.None? ==> r.transpiledCode == d.transpiledCode
    ensures p.html.Some? ==> r.html == p.html.value
    ensures p.html.None? ==> r.html == d.html
    ensures p.json.Some? ==> r.json == p.json.value
    ensures p.json.None? ==> r.json == d.json
    ensures p.error.Some? ==> r.error == p.error.value
    ensures p.error.None? ==> r.error == d.error
  {
    EditorsData(
      Override(p.code, d.code),
      Override(p.transpiledCode, d.transpiledCode),
      Override(p.html, d.html),
      Override(p.json, d.json),
      Override(p.error, d.error))
  }

  /** Applying the same patch twice is applying it once, and the empty
      patch changes nothing. */
  lemma UpdateIdempotent(d: EditorsData, p: Patch)
    ensures UpdateEditorsData(UpdateEditorsData(d, p), p) == UpdateEditorsData(d, p)
    ensures UpdateEditorsData(d, NoChange) == d
  {
  }
}

=== FILE: effects.dfy ===
/** The calls the components make into code outside the core, recorded
    rather than performed, and the shape of a handler's outcome. */
module Effects {
  import opened JsValues
  import opened Editors
  import opened Assembly

  /** A value written to the session store. */
  datatype Stored = Text(text: string) | Flag(flag: bool)

  datatype Effect =
    | SaveToSession(key: string, value: Stored)          // StorageUtils.saveToSession
    | TurnOffSession                                     // StorageUtils.turnOffSession
    | FetchGist(id: string, sha: JsStr)                  // GistAPIUtils.getGist
    | CreateGist(data: EditorsData, status: JsStr)       // GistAPIUtils.createGist
    | UpdateGist(id: string, data: EditorsData, status: JsStr)  // GistAPIUtils.updateGist
    | ShowProgress                                       // Progress.show
    | HideProgress                                       // Progress.hide
    | HideAllProgress                                    // Progress.hideAll
    | RunBundle(bundle: Bundle)                          // a new `bundle` prop reaches the Sandbox
    | OpenGistPage(id: string)                           // window.location.search = `gist=${id}`

  /** An exception a handler raises part-way through. */
  datatype Fault = TypeError(message: string)

  /** The state after a handler ran, and the calls it made, in order. */
  datatype Reaction<S> = Reaction(next: S, effects: seq<Effect>)

  /** The same for a handler that may throw: `next` is the state as it was
      when the exception left the handler. */
  datatype Run<S> =
    | Ran(next: S, effects: seq<Effect>)
    | Threw(next: S, effects: seq<Effect>, fault: Fault)
}

=== FILE: environment.dfy ===
/** The collaborators the orchestration core calls but does not own:
    Babel, `JSON.parse`/`JSON.stringify`, the default editor contents,
    and the records the session store and the gist service hand back. */
module Environment {
  import opened Wrappers
  import opened JsValues

  /** `Babel.transform(code, BABEL_OPTIONS).code`, or the error it throws. */
  datatype BabelOutcome = Compiled(code: string) | Thrown(error: Error)

  datatype Env = Env(
    babel: string -> BabelOutcome,
    parse: string -> Result<Json, Error>,
    stringify: Json -> string,
    defaultCode: string,
    defaultHtml: string,
    defaultJson: string)

  /** Reading back what `JSON.stringify` wrote for `v` gives `v` again.
      JavaScript's pair meets this for every value `JSON.parse` produced,
      whose numbers are all doubles; it is not a law over every `Json`,
      since a real such as 1/3 has no double that parses back to it. */
  ghost predicate ReadsBack(env: Env, v: Json)
  {
    env.parse(env.stringify(v)) == Ok(v)
  }

  /** What `StorageUtils.getSession()` returns when a session exists;
      `autorun` is the truthiness of the stored autorun flag. */
  datatype Session = Session(code: JsStr, html: JsStr, json: JsStr, autorun: bool)

  /** The editor fields `GistAPIUtils.getGist` delivers for a saved gist. */
  datatype Gist = Gist(code: JsStr, html: JsStr, json: JsStr)

  /** What a successful `createGist`/`updateGist` hands its callback:
      the gist id (`res.body.id`) and whether the save forked the gist. */
  datatype SaveResponse = SaveResponse(id: string, isFork: bool)
}

=== FILE: js_values.dfy ===
/** The JavaScript values the orchestration code handles, with the
    language rules it leans on: truthiness, `||`, the string coercion
    `JSON.parse` applies to its argument, and the own enumerable
    properties `Object.assign` copies from a parsed manifest. */
module JsValues {
  import opened Wrappers

  /** A value that is either `undefined` or a string (editor contents,
      query parameters, the pending gist status). */
  datatype JsStr = Undef | Str(s: string)

  /** JavaScript truthiness: `undefined` and the empty string are falsy. */
  predicate Truthy(v: JsStr)
  {
    v.Str? && v.s != ""
  }

  /** `a || b` */
  function Or(a: JsStr, b: JsStr): JsStr
  {
    if Truthy(a) then a else b
  }

  /** `String(v)`: what `JSON.parse` actually reads when handed `v`. */
  function ToText(v: JsStr): string
  {
    match v
    case Undef => "undefined"
    case Str(s) => s
  }

  /** A thrown error object. `babel` is the `_babel` tag Babel puts on the
      errors it raises for rejected source code. */
  datatype Error = Error(babel: bool, message: string)

  /** A value `JSON.parse` can produce. */
  datatype Json =
    | JNull
    | JBool(b: bool)
    | JNum(n: real)
    | JStr(str: string)
    | JArr(items: seq<Json>)
    | JObj(fields: map<string, Json>)

  /** The parsed page query string: parameter name to value. */
  type Query = map<string, string>

  /** `query[key]`, `undefined` when the parameter is absent. */
  function Param(q: Query, key: string): JsStr
  {
    if key in q then Str(q[key]) else Undef
  }

  function Digit(d: nat): char
    requires d < 10
  {
    "0123456789"[d]
  }

  /** The property key of array or string index `n`. */
  function DecimalKey(n: nat): string
  {
    if n < 10 then [Digit(n)] else DecimalKey(n / 10) + [Digit(n % 10)]
  }

  /** The index-keyed own properties of an array-like value. */
  function IndexedProps(xs: seq<Json>): map<string, Json>
  {
    if |xs| == 0 then map[]
    else IndexedProps(xs[..|xs| - 1])[DecimalKey(|xs| - 1) := xs[|xs| - 1]]
  }

  /** The own enumerable properties `Object.assign` copies from `v`:
      an object's fields, the indexed elements of an array or the indexed
      characters of a string, and nothing for `null`, numbers and booleans. */
  function OwnProps(v: Json): map<string, Json>
  {
    match v
    case JObj(fields) => fields
    case JArr(items) => IndexedProps(items)
    case JStr(str) => IndexedProps(seq(|str|, i requires 0 <= i < |str| => JStr([str[i]])))
    case _ => map[]
  }
}

=== FILE: main_view.dfy ===
/** The `Main` component: its own state (active editor, share dialog,
    autorun flag and the autorun debounce timer), its mount-time session
    check, the autorun toggle and debounce, and `saveGist`, which reaches
    into `BundleHOC` through its props. */
module MainView {
  import opened Wrappers
  import opened JsValues
  import opened Environment
  import opened Timers
  import opened Effects
  import opened BundleHoc

  datatype MainState = MainState(
    activeEditor: string,
    shareModal: bool,
    autorunIsOn: bool,
    autorunDelay: Timer<()>)   // this.autorunDelay

  /** The constructor's state. */
  function InitialMain(): (m: MainState)
    ensures m.activeEditor == "code" && !m.shareModal && !m.autorunIsOn
    ensures Pending(m.autorunDelay) == 0
  {
    MainState("code", false, false, NoTimer())
  }

  /** `checkPreviousSession()`: a truthy stored autorun flag turns autorun
      on and nothing else changes. It reads `session.autorun` unguarded, so
      it throws when there is no session. */
  function CheckPreviousSession(m: MainState, session: Option<Session>): (r: Run<MainState>)
    ensures r.Threw? <==> session.None?
    ensures r.effects == [] && r.next.(autorunIsOn := m.autorunIsOn) == m
    ensures r.next.autorunIsOn == (m.autorunIsOn || (session.Some? && session.value.autorun))
  {
    match session
    case None => Threw(m, [], TypeError("Cannot read property 'autorun' of null"))
    case Some(ss) => if ss.autorun then Ran(m.(autorunIsOn := true), []) else Ran(m, [])
  }

  /** `componentDidMount()`: the previous session is consulted only when
      the query names no gist. Binding the keyboard shortcuts is left out. */
  function OnMount(m: MainState, query: Query, session: Option<Session>): (r: Run<MainState>)
    ensures Truthy(Param(query, "gist")) ==> r == Ran(m, [])
    ensures !Truthy(Param(query, "gist")) ==> r == CheckPreviousSession(m, session)
  {
    if Truthy(Param(query, "gist")) then Ran(m, []) else CheckPreviousSession(m, session)
  }

  /** With a gist in the query, what the session store holds cannot
      influence the mount. */
  lemma MountIgnoresSessionForGist(m: MainState, query: Query, a: Option<Session>, b: Option<Session>)
    requires Truthy(Param(query, "gist"))
    ensures OnMount(m, query, a) == OnMount(m, query, b)
  {
  }

  /** `toggleAutorun()`: negate the flag and persist exactly the new value. */
  function ToggleAutorun(m: MainState): (r: Reaction<MainState>)
    ensures r.next.autorunIsOn == !m.autorunIsOn
    ensures r.effects == [SaveToSession("autorun", Flag(r.next.autorunIsOn))]
    ensures r.next.(autorunIsOn := m.autorunIsOn) == m
  {
    var on := !m.autorunIsOn;
    Reaction(m.(autorunIsOn := on), [SaveToSession("autorun", Flag(on))])
  }

  /** Toggling twice restores the state, and the last value persisted is
      the original one. */
  lemma ToggleTwiceRestores(m: MainState)
    ensures ToggleAutorun(ToggleAutorun(m).next).next == m
    ensures ToggleAutorun(ToggleAutorun(m).next).effects == [SaveToSession("autorun", Flag(m.autorunIsOn))]
  {
  }

  /** `autorunOnChange()`: cancel the pending autorun timer, then arm a new
      one, so no autorun timer is ever left behind. */
  function AutorunOnChange(m: MainState): (r: MainState)
    ensures r.autorunDelay.held.Some? && r.autorunDelay.stray == m.autorunDelay.stray
    ensures Pending(r.autorunDelay) == |m.autorunDelay.stray| + 1
    ensures r.(autorunDelay := m.autorunDelay) == m
  {
    m.(autorunDelay := Arm(Clear(m.autorunDelay), ()))
  }

  /** `saveGist(status)` as written: after showing progress it calls
      `this.props.setGistStatus`, which `BundleHOC` does not pass down, so
      it throws before recording the status or requesting a bundle. */
  function SaveGistAsWritten(hoc: HocState, status: JsStr): (r: Run<HocState>)
    ensures r.Threw? && r.effects == [ShowProgress]
    ensures r.next == hoc
  {
    Threw(hoc, [ShowProgress], TypeError("this.props.setGistStatus is not a function"))
  }

  /** `saveGist(status)` with `setGistStatus` passed down: the status is
      recorded before the bundle is requested, so the requested bundle's
      end will sync it. */
  function SaveGist(env: Env, hoc: HocState, status: JsStr): (r: Reaction<HocState>)
    ensures r.next.gistStatus == status
    ensures |r.effects| >= 1 && r.effects[0] == ShowProgress
    ensures var made := MakeBundle(env, hoc.(gistStatus := status));
      r.next == made.next && r.effects[1..] == made.effects
  {
    var made := MakeBundle(env, hoc.(gistStatus := status));
    Reaction(made.next, [ShowProgress] + made.effects)
  }
}

=== FILE: timers.dfy ===
/** The `setTimeout`/`clearTimeout` sites of the components. Each site
    keeps the handle of its latest timer in a field; `clearTimeout` on that
    field cancels only that timer. A timer whose handle was overwritten
    without being cleared, or never stored, still fires: it is `stray`.
    Wall-clock delays are not modelled; a pending timer fires when the
    environment says so. */
module Timers {
  import opened Wrappers

  /** The pending timers of one site; each carries the payload its callback
      captured. */
  datatype Timer<T> = Timer(held: Option<T>, stray: seq<T>)

  /** Which pending timer of a site fires. */
  datatype Which = Held | Stray(index: nat)

  function NoTimer<T>(): Timer<T>
  {
    Timer(None, [])
  }

  /** How many timers of the site are still due to fire. */
  function Pending<T>(t: Timer<T>): nat
  {
    |t.stray| + (if t.held.Some? then 1 else 0)
  }

  /** `clearTimeout(this.field)` */
  function Clear<T>(t: Timer<T>): (r: Timer<T>)
    ensures r.held.None? && r.stray == t.stray
    ensures Pending(r) == |t.stray|
  {
    Timer(None, t.stray)
  }

  /** `this.field = setTimeout(...)`: the previous timer is not cancelled. */
  function Arm<T>(t: Timer<T>, x: T): (r: Timer<T>)
    ensures r.held == Some(x)
    ensures Pending(r) == Pending(t) + 1
    ensures multiset(r.stray) == multiset(t.stray) + (if t.held.Some? then multiset{t.held.value} else multiset{})
  {
    Timer(Some(x), t.stray + (if t.held.Some? then [t.held.value] else []))
  }

  /** `setTimeout(...)` whose handle is not kept. */
  function Schedule<T>(t: Timer<T>, x: T): (r: Timer<T>)
    ensures r.held == t.held
    ensures Pending(r) == Pending(t) + 1
    ensures r.stray[..|t.stray|] == t.stray
    ensures r.stray[|r.stray| - 1] == x
  {
    Timer(t.held, t.stray + [x])
  }

  /** The timer `w` fires: its payload and the timers still pending, or
      `None` when no timer is pending there. */
  function Fire<T>(t: Timer<T>, w: Which): (r: Option<(T, Timer<T>)>)
    ensures r.None? <==> (w.Held? && t.held.None?) || (w.Stray? && w.index >= |t.stray|)
    ensures r.Some? ==> Pending(r.value.1) == Pending(t) - 1
    ensures r.Some? && w.Held? ==> r.value.0 == t.held.value && r.value.1 == Clear(t)
    ensures r.Some? && w.Stray? ==> r.value.0 == t.stray[w.index] && r.value.1.held == t.held
    ensures r.Some? && w.Stray? ==> r.value.1.stray == t.stray[..w.index] + t.stray[w.index + 1..]
  {
    match w
    case Held =>
      if t.held.Some? then Some((t.held.value, Timer(None, t.stray))) else None
    case Stray(i) =>
      if i < |t.stray| then Some((t.stray[i], Timer(t.held, t.stray[..i] + t.stray[i + 1..]))) else None
  }

  /** Clearing the field before re-arming it (the debounce idiom) leaks
      nothing: the stray timers are exactly those there were before. */
  lemma ClearThenArmLeaksNothing<T>(t: Timer<T>, x: T)
    ensures Arm(Clear(t), x).stray == t.stray
    ensures t.stray == [] ==> Pending(Arm(Clear(t), x)) == 1
  {
  }

  /** Re-arming a field whose timer is still pending without clearing it
      leaves that timer running. */
  lemma ArmWithoutClearLeaks<T>(t: Timer<T>, x: T)
    requires t.held.Some?
    ensures t.held.value in Arm(t, x).stray
    ensures |Arm(t, x).stray| == |t.stray| + 1
  {
  }
}

=== FILE: transpile.dfy ===
/** `_transpileCodeAndCatch`: run Babel over the editor's code and turn a
    Babel rejection into a comment block plus the error, so that the
    transpiled code is a string whenever Babel is the one that failed. */
module Transpile {
  import opened Wrappers
  import opened JsValues
  import opened Environment

  /** `{ transpiledCode, error }`; either may be `undefined`. */
  datatype Transpiled = Transpiled(code: JsStr, error: Option<Error>)

  const FallbackMessage: string := "Error while transpilation"

  /** `err.message || 'Error while transpilation'` */
  function ShownMessage(message: string): string
  {
    if message != "" then message else FallbackMessage
  }

  /** The code put in place of source Babel rejected. */
  function CommentBlock(message: string): string
  {
    "/*\n" + ShownMessage(message) + "\n*/"
  }

  /** The text between the opening and closing lines of a comment block. */
  function CommentBody(block: string): string
    requires |block| >= 6
  {
    block[3..|block| - 3]
  }

  /** The comment closer, a star followed by a slash, occurs in `s`. */
  predicate HasCloser(s: string)
  {
    exists i :: 0 <= i < |s| - 1 && s[i] == '*' && s[i + 1] == '/'
  }

  /** The comment block opens and closes like a block comment and embeds
      the message it was made from, which can be read back out of it. */
  lemma CommentBlockEmbedsMessage(message: string)
    ensures |CommentBlock(message)| >= 6
    ensures CommentBlock(message)[..2] == "/*"
    ensures CommentBlock(message)[|CommentBlock(message)| - 2..] == "*/"
    ensures CommentBody(CommentBlock(message)) == ShownMessage(message)
    ensures ShownMessage(message) != ""
  {
    var m := ShownMessage(message);
    var b := CommentBlock(message);
    assert b == "/*\n" + m + "\n*/";
    assert b[3..|b| - 3] == m;
  }

  /** The comment block is a single comment, closed only by its last two
      characters, exactly when the shown message contains no closer. */
  lemma {:induction false} CommentBlockClosesOnlyAtEnd(message: string)
    ensures var b := CommentBlock(message);
      !HasCloser(b[..|b| - 1]) <==> !HasCloser(ShownMessage(message))
  {
    var m := ShownMessage(message);
    var b := CommentBlock(message);
    var p := b[..|b| - 1];
    assert |p| == |m| + 5;
    assert p[0] == '/' && p[1] == '*' && p[2] == '\n' && p[3 + |m|] == '\n' && p[4 + |m|] == '*';
    assert forall j :: 0 <= j < |m| ==> p[j + 3] == m[j];
    if HasCloser(m) {
      var i :| 0 <= i < |m| - 1 && m[i] == '*' && m[i + 1] == '/';
      assert p[i + 3] == '*' && p[i + 4] == '/';
    } else {
      forall i | 0 <= i < |p| - 1
        ensures !(p[i] == '*' && p[i + 1] == '/')
      {
        if 3 <= i < 2 + |m| {
          assert p[i] == m[i - 3] && p[i + 1] == m[i - 2];
        }
      }
    }
  }

  /** `_transpileCodeAndCatch(code)` */
  function TranspileCodeAndCatch(env: Env, code: JsStr): (r: Transpiled)
    ensures r.error.Some? <==> Truthy(code) && env.babel(code.s).Thrown? && env.babel(code.s).error.babel
    ensures r.code.Undef? <==> !Truthy(code) || (env.babel(code.s).Thrown? && !env.babel(code.s).error.babel)
    ensures r.error.Some? ==> r.error.value == env.babel(code.s).error && r.code == Str(CommentBlock(r.error.value.message))
    ensures Truthy(code) && env.babel(code.s).Compiled? ==> r.code == Str(env.babel(code.s).code)
  {
    if !Truthy(code) then Transpiled(Undef, None)
    else
      match env.babel(code.s)
      case Compiled(out) => Transpiled(Str(out), None)
      case Thrown(err) =>
        if err.babel then Transpiled(Str(CommentBlock(err.message)), Some(err))
        else Transpiled(Undef, None)
  }
}

=== FILE: wrappers.dfy ===
/** The two wrappers the model uses: `Option` for a value that may be
    absent (`undefined` in the source) and `Result` for a call that either
    returns or throws. */
module Wrappers {

  datatype Option<T> = None | Some(value: T)

  datatype Result<T, E> = Ok(value: T) | Err(error: E)
}
